=== FILE: README.md ===
# ts-zip `ZipArchive` in Dafny

A model of the read-only ZIP reader in `ZipArchive.ts`. It covers:

- the `ZipArchive` constructor, which finds the end-of-central-directory record and reads the central directory;
- `findEndOfCentralDirectory`;
- the `DirectoryEnd`, `CentralFileHeader` and `LocalFileHeader` constructors;
- `CentralFileHeader.extract`;
- the bounds check of `readString`.

The record layouts are those of the .ZIP File Format Specification (PKWARE APPNOTE.TXT):

- section 4.3.7 for the local file header;
- section 4.3.12 for the central directory header;
- section 4.3.16 for the end-of-central-directory record.

The archive is an immutable byte sequence (`seq<byte>`, with `byte` the integers 0..255). Every constructor becomes a pure function that returns a `Result`:

- A read past the end of the buffer is `Err(RangeError)`. It stands for the JavaScript `RangeError` that `DataView` and `Uint8Array` throw.
- A missing record is `Err(EndOfCentralDirectoryNotFound)`.
- An unknown compression method is `Err(UnsupportedCompressionMethod(m))`, which is the rejected promise.
- A payload the decoder refuses is `Err(InflateFailed)`.

Modules, in dependency order:

- `Results`: the error kinds, `Option` and `Result`.
- `BinaryView`:
  - the little-endian `getUint16`/`getUint32` reads;
  - the `Uint8Array(buffer, offset, length)` bounds check;
  - the clamping `ArrayBuffer.prototype.slice`;
  - the inverse encoders `LeU16`/`LeU32`, and the `Embeds` relation used by every round trip.
- `EndOfCentralDirectory`: the backward signature scan and the 22-byte record with its comment.
- `CentralDirectory`: the 46-byte central header and the constructor's loop over the directory.
- `LocalHeader`: the 30-byte local header and where the payload starts.
- `Extraction`: `extract`, with raw DEFLATE as a decoder parameter `seq<byte> -> Option<seq<byte>>`.
- `Archive`: the constructor as a whole.

Each parser is written in closed form: it states when the reads fit and what the record then holds. A `...Stepwise` twin makes the constructor's reads one by one, in source order, with `:-`. A `...StepwiseAgrees` lemma proves the two are equal on every buffer, so the closed form throws exactly when the constructor would.

Each record has an encoder as its partner, and two round-trip lemmas tie them together:

- parsing an encoded record gives it back;
- a record that parses encodes back to exactly the bytes it was read from.

Modelling choices:

- `ArrayBuffer.prototype.slice` in `extract` is modelled with its clamping. It never fails, so a payload that runs past the buffer's end is cut short.
- Text fields (`signature` of the end record, file names, extra fields, comments) are kept as raw bytes. Only the bounds check of `readString` is modelled.
- A central header's `signature` is recorded but never compared with `0x02014b50`, as in the source (`SignatureNotChecked`). The local header's signature is not checked either.
- A signature that starts later than the end record's own, whether inside its fixed fields, its comment or anywhere after it, wins. The scan takes the last matching offset (`LocateFindsLast`), and that is the behaviour modelled.
- When general-purpose bit 3 is set, the payload start moves 16 bytes past the extra field, as the code does. Section 4.3.9 of APPNOTE.TXT places the data descriptor after the compressed data instead. The model follows the code.
- The `extra?` field of `LocalFileHeader` is declared but never assigned, so it has no counterpart.

## Model

| member | source | states |
|---|---|---|
| BinaryView.ReadU16 | ZipArchive.ts:95-100 | `getUint16(off, true)` succeeds exactly when `off + 2` is within the buffer. It then yields `b[off] + 256 * b[off+1]`; otherwise it raises a RangeError |
| BinaryView.ReadU32 | ZipArchive.ts:94 | `getUint32(off, true)` succeeds exactly when `off + 4` is within the buffer. It then yields the four bytes composed least significant first; otherwise it raises a RangeError |
| BinaryView.LeU16Decodes | ZipArchive.ts:55-58 | Reading back the little-endian encoding of a 16-bit value gives that value |
| BinaryView.LeU32Decodes | ZipArchive.ts:59-60 | Reading back the little-endian encoding of a 32-bit value gives that value |
| BinaryView.U16AtEncodes | ZipArchive.ts:55-58 | The two bytes a 16-bit read consumes are exactly the encoding of the value read |
| BinaryView.U32AtEncodes | ZipArchive.ts:59-60 | The four bytes a 32-bit read consumes are exactly the encoding of the value read |
| BinaryView.ReadBytes | ZipArchive.ts:175-179 | The `Uint8Array` view succeeds exactly when `off + len` fits in the buffer. It yields those `len` bytes in order; otherwise it raises a RangeError |
| BinaryView.Slice | ZipArchive.ts:120 | `ArrayBuffer.slice` never fails. Both ends are clamped to the buffer length: the result is exactly `b[start..min(end, len)]` when `start < min(end, len)`, and empty otherwise. So a range that runs past the end yields the remaining tail of the buffer |
| BinaryView.SliceInBounds | ZipArchive.ts:120 | Within bounds the clamping slice is the plain subsequence |
| BinaryView.SliceAgrees | ZipArchive.ts:120 | The slice depends only on the bytes from `start` onwards |
| EndOfCentralDirectory.SignatureValue | ZipArchive.ts:31-32 | The 32-bit read equals `0x06054b50` exactly when the four bytes are `50 4B 05 06` |
| EndOfCentralDirectory.ScanBack | ZipArchive.ts:29-37 | The scan from `i` down to 0 returns an offset at or below `i` that holds the signature, with none above it up to `i`. It returns nothing only when no offset in `[0, i]` holds the signature. Every probe is in bounds |
| EndOfCentralDirectory.Locate | ZipArchive.ts:28-39 | Starting at `len - 22`, the scan finds the largest offset `i` with `i + 22 <= len` that holds the signature. It finds none exactly when there is no such offset, and in particular whenever `len < 22` |
| EndOfCentralDirectory.LocateFindsLast | ZipArchive.ts:28-39 | The scan's answer is determined by the buffer: the last signature within reach is the one found |
| EndOfCentralDirectory.ParseDirectoryEnd | ZipArchive.ts:53-63 | The record at `off` parses exactly when its 22 fixed bytes and then `commentLength` comment bytes fit in the buffer. Any failure is a RangeError |
| EndOfCentralDirectory.DirectoryEndStepwiseAgrees | ZipArchive.ts:53-63 | The constructor's eight field reads and the comment view, made one by one and failing at the first overrun, agree with the closed form on every buffer |
| EndOfCentralDirectory.DirectoryEndReencodes | ZipArchive.ts:53-63 | A parsed record has `commentLength` comment bytes. Its encoding is exactly the bytes from `off` to the end of its comment: u16 fields at 4, 6, 8 and 10, u32 fields at 12 and 16, the u16 comment length at 20, then the comment |
| EndOfCentralDirectory.DirectoryEndRoundTrip | ZipArchive.ts:53-63 | Parsing an encoded record, wherever it sits, gives it back |
| EndOfCentralDirectory.FindEndOfCentralDirectory | ZipArchive.ts:28-39 | It fails with "not found" exactly when no offset within reach holds the signature. Otherwise its result is the record parsed at the located offset. A record found but overrunning the buffer fails with a RangeError, and a record parsed successfully has signature field `PK\5\6` |
| EndOfCentralDirectory.FindLaidOutEnd | ZipArchive.ts:28-39 | A record at the very end of a buffer is the record found, provided no signature starts at record offsets 1 to `commentLength`. Those offsets can overlap the fixed fields as well as the comment |
| CentralDirectory.ParseCentralFileHeader | ZipArchive.ts:92-116 | A header parses exactly when its 46 fixed bytes and then its name, extra field and comment fit. Any failure is a RangeError. On success `nextEntryByteOffset = off + 46 + fileNameLength + extraLength + commentLength`, each variable part has its stated length, and the result lies within the buffer |
| CentralDirectory.CentralFileHeaderStepwiseAgrees | ZipArchive.ts:92-116 | The constructor's seventeen field reads and three views, made one by one, agree with the closed form on every buffer |
| CentralDirectory.CentralFileHeaderReencodes | ZipArchive.ts:92-116 | A parsed header's encoding is exactly the bytes from `off` to `nextEntryByteOffset`, with each field in its place. In particular `localFileHeaderOffset` is the u32 at `off + 42` |
| CentralDirectory.CentralFileHeaderReadsBack | ZipArchive.ts:94-113 | Each read the constructor makes of an encoded header returns the encoded field |
| CentralDirectory.CentralFileHeaderEmbedded | ZipArchive.ts:92-116 | A well-formed header encoded at `off` of any buffer parses back to itself |
| CentralDirectory.CentralFileHeaderRoundTrip | ZipArchive.ts:92-116 | Parsing an encoded header, wherever it sits, gives it back |
| CentralDirectory.SignatureNotChecked | ZipArchive.ts:94 | The header signature is read and recorded but never checked. Rewriting the first four bytes, whether or not they hold `0x02014b50`, changes neither whether the header parses nor any field but `signature`, which is the new u32 |
| CentralDirectory.ReadCentralDirectory | ZipArchive.ts:20-25 | The loop yields exactly `count` headers. Header 0 is parsed at the start offset and header k+1 where header k ends. If any header overruns the buffer, the whole walk fails with a RangeError |
| CentralDirectory.ReadCentralDirectoryStep | ZipArchive.ts:21-24 | One iteration: a header that parses, followed by the walk from where it ends, extends the walk by one |
| CentralDirectory.DirectoryWalkIsRead | ZipArchive.ts:20-25 | Conversely, any chain of headers that parse in sequence from the start offset is exactly what the loop returns. So the loop fails only when no such chain of the declared length exists |
| CentralDirectory.DirectoryWalkTail | ZipArchive.ts:20-25 | A walk is its first header followed by a walk from that header's `nextEntryByteOffset` |
| CentralDirectory.DirectoryWalkIsLaidOut | ZipArchive.ts:115 | Every header of a walk is well formed at the offset where it was read |
| CentralDirectory.LaidOutAdvances | ZipArchive.ts:115 | In a chain of well-formed headers, header k starts at least `46 * k` bytes after the start and ends at least `46 * (k + 1)` bytes after it |
| CentralDirectory.DirectoryWalkAdvances | ZipArchive.ts:20-25 | The cursor strictly advances: header k of a walk starts at least `46 * k` bytes past the directory offset |
| CentralDirectory.CentralDirectoryEmbedded | ZipArchive.ts:20-25 | A chain of well-formed headers encoded back to back at `off` is read back in full and in order |
| CentralDirectory.CentralDirectoryRoundTrip | ZipArchive.ts:15-26 | Walking an encoded central directory, wherever it sits, gives back its headers |
| LocalHeader.ParseLocalFileHeader | ZipArchive.ts:149-170 | A local header parses exactly when its 30 fixed bytes and its file name fit; the extra field is only skipped. Any failure is a RangeError. On success the header is well formed: the name has `fileNameLength` bytes, `startsAt = off + 30 + fileNameLength + extraLength`, plus 16 when flag bit 3 is set, and `nextEntryByteOffset = startsAt + compressedSize` |
| LocalHeader.LocalFileHeaderStepwiseAgrees | ZipArchive.ts:149-170 | The constructor's eleven field reads and the name view, made one by one, agree with the closed form on every buffer |
| LocalHeader.LocalFileHeaderReencodes | ZipArchive.ts:149-169 | A parsed local header is well formed: `startsAt = off + 30 + fileNameLength + extraLength`, plus 16 when flag bit 3 is set, and `nextEntryByteOffset = startsAt + compressedSize`. Its fixed part and name are exactly the bytes read |
| LocalHeader.FlagsRewrite | ZipArchive.ts:153-169 | Changing only the flag bytes changes only the flags and the payload position. The position moves by 16 times the change in bit 3, and the payload length stays the same |
| LocalHeader.DataDescriptorAddsSixteen | ZipArchive.ts:164-167 | Setting bit 3 and leaving every other header byte unchanged moves the payload start exactly 16 bytes further |
| LocalHeader.OtherFlagBitsIgnored | ZipArchive.ts:165 | Flag values that agree on bit 3 give the same payload start |
| LocalHeader.SizeRewrite | ZipArchive.ts:158-167 | The local `compressedSize` field has no influence on whether the header parses or where its payload starts |
| LocalHeader.LocalFileHeaderReadsBack | ZipArchive.ts:151-162 | Each read the constructor makes of an encoded local header returns the encoded field |
| LocalHeader.LocalFileHeaderRoundTrip | ZipArchive.ts:149-170 | Parsing an encoded local header, wherever it sits, gives it back |
| Extraction.RawPayload | ZipArchive.ts:119-120 | The payload exists exactly when the local header at `localFileHeaderOffset` parses, and the failure is that header's RangeError. When `startsAt` is inside the buffer, the payload is exactly `b[startsAt..min(startsAt + compressedSize, len)]`, using the central `compressedSize`. When `startsAt` is at or past the end, the payload is empty |
| Extraction.Extract | ZipArchive.ts:118-128 | A local-header failure propagates unchanged. Method 0 returns the payload as is. Method 8 returns what the decoder makes of it, or fails if the decoder fails. Any other method is rejected. Success implies method 0 or 8 |
| Extraction.ExtractIgnoresDecoder | ZipArchive.ts:121-127 | For every method other than 8, the outcome does not depend on the decoder |
| Extraction.RawPayloadUsesCentralSize | ZipArchive.ts:120 | Rewriting the local header's `compressedSize` bytes leaves the payload unchanged |
| Extraction.ExtractUsesCentralSize | ZipArchive.ts:119-120 | The slice length comes from the central header, so rewriting the local header's size field does not change what is extracted |
| Extraction.ExtractLaidOutEntry | ZipArchive.ts:118-128 | Consider an entry laid out as local header, extra field, the 16 skipped bytes when bit 3 is set, then the payload. Its payload is found; stored it extracts unchanged, and deflated it extracts to the decoder's output |
| Archive.OpenArchive | ZipArchive.ts:15-26 | Opening fails with "not found" exactly when no signature is in reach, and otherwise fails only with a RangeError. On success the end record is the one parsed at the located offset. The files are exactly `numberCentralDirectoryRecords` headers forming a walk from `centralDirectoryOffset` |
| Archive.OpenArchiveSucceeds | ZipArchive.ts:15-26 | The converse: when the end record is found and parses, and a walk of the declared length exists from the directory offset, opening succeeds with exactly those headers and that record |
| Archive.OpenLaidOutArchive | ZipArchive.ts:15-26 | An archive laid out as a central directory followed by its end record opens to exactly those headers and that record. This holds when no signature starts at record offsets 1 to `commentLength`, which can overlap the fixed fields as well as the comment |

## Left out

- Decompression: `inflateRawSync` (ZipArchive.ts:124) and the `DecompressionStream`-based `inflate` (ZipArchive.ts:181-204) are foreign codecs. Raw DEFLATE is an uninterpreted decoder parameter, and `None` stands for the codec throwing.
- UTF-8 decoding in `readString` (ZipArchive.ts:177) is a foreign `TextDecoder`. Names, extra fields, comments and the end record's signature stay raw bytes.
- The promise plumbing of `extract` (ZipArchive.ts:118, 126) is modelled as a synchronous `Result`. The rejected promise carries no reason in the source; the model names the method instead.
- The `data` and `view` fields that hold the `DataView` are not modelled. The buffer is passed to each function instead.
- The sequential signature-scanning mode, data-descriptor validation, CRC checks, ZIP64, multi-disk archives and encryption have no code in the source, so they are absent here too.
- JavaScript numbers are doubles. Every offset computed is a buffer offset plus a few 16- and 32-bit fields, far below 2^53, so JavaScript computes it exactly. They are modelled as unbounded integers.
- LocalHeader.LocalFileHeaderReencodes: covers the fixed part and the file name only, because the constructor skips the extra field without reading it (it may lie beyond the buffer).
- Archive.OpenLaidOutArchive: assumes no signature starts at record offsets 1 to `commentLength`, which can overlap the fixed fields as well as the comment, because the scan would otherwise stop there (see `LocateFindsLast`).

=== FILE: archive.dfy ===
/** The `ZipArchive` constructor: locate the end-of-central-directory record,
    then read exactly as many central headers as it declares, starting where
    it says the directory starts. */
module Archive {
  import opened Results
  import opened BinaryView
  import EndOfCentralDirectory
  import opened CentralDirectory

  datatype ZipArchive = ZipArchive(files: seq<CentralFileHeader>, eod: EndOfCentralDirectory.DirectoryEnd)

  /** Opening an archive either yields every declared entry or fails as a whole. */
  function OpenArchive(b: seq<byte>): (r: Result<ZipArchive>)
    ensures r == Err(EndOfCentralDirectoryNotFound) <==>
              forall j :: 0 <= j && j + EndOfCentralDirectory.RecordSize <= |b| ==> !EndOfCentralDirectory.SignatureAt(b, j)
    ensures r.Err? && r.error != EndOfCentralDirectoryNotFound ==> r.error == RangeError
    ensures r.Ok? ==>
              && EndOfCentralDirectory.Locate(b).Some?
              && EndOfCentralDirectory.ParseDirectoryEnd(b, EndOfCentralDirectory.Locate(b).value) == Ok(r.value.eod)
              && |r.value.files| == r.value.eod.numberCentralDirectoryRecords
              && IsDirectoryWalk(b, r.value.eod.centralDirectoryOffset, r.value.files)
  {
    var eod :- EndOfCentralDirectory.FindEndOfCentralDirectory(b);
    var files :- ReadCentralDirectory(b, eod.centralDirectoryOffset, eod.numberCentralDirectoryRecords);
    Ok(ZipArchive(files, eod))
  }

  /** An archive laid out as a central directory followed by its
      end-of-central-directory record opens to exactly those headers and that
      record, provided no signature starts at record offsets 1 to
      `commentLength`; those offsets can overlap the fixed fields as well as
      the comment. */
  lemma OpenLaidOutArchive(p: seq<byte>, hs: seq<CentralFileHeader>, d: EndOfCentralDirectory.DirectoryEnd)
    requires LaidOutFrom(|p|, hs)
    requires EndOfCentralDirectory.WellFormed(d) && d.signature == EndOfCentralDirectory.SignatureBytes
    requires d.centralDirectoryOffset == |p| && d.numberCentralDirectoryRecords == |hs|
    requires forall j :: 0 < j <= d.commentLength ==>
               !EndOfCentralDirectory.SignatureAt(EndOfCentralDirectory.EncodeDirectoryEnd(d), j)
    ensures OpenArchive(p + EncodeCentralDirectory(hs) + EndOfCentralDirectory.EncodeDirectoryEnd(d))
            == Ok(ZipArchive(hs, d))
  {
    var q := p + EncodeCentralDirectory(hs);
    var ed := EndOfCentralDirectory.EncodeDirectoryEnd(d);
    EndOfCentralDirectory.FindLaidOutEnd(q, d);
    CentralDirectoryRoundTrip(p, hs, ed);
    assert OpenArchive(q + ed) == Ok(ZipArchive(hs, d));
  }

  /** The converse of `OpenArchive`'s contract: whenever the end record is
      found and parses, and a walk of the declared length exists from the
      directory offset, opening succeeds with exactly those headers. */
  lemma OpenArchiveSucceeds(b: seq<byte>, d: EndOfCentralDirectory.DirectoryEnd, hs: seq<CentralFileHeader>)
    requires EndOfCentralDirectory.FindEndOfCentralDirectory(b) == Ok(d)
    requires |hs| == d.numberCentralDirectoryRecords && IsDirectoryWalk(b, d.centralDirectoryOffset, hs)
    ensures OpenArchive(b) == Ok(ZipArchive(hs, d))
  {
    DirectoryWalkIsRead(b, d.centralDirectoryOffset, hs);
  }
}

=== FILE: binary_view.dfy ===
/** Bounds-checked little-endian access to an immutable byte buffer: the
    `DataView.getUint16/getUint32(offset, true)` calls, the bounds check of the
    `Uint8Array(buffer, offset, length)` view in `readString`, and the clamping
    `ArrayBuffer.prototype.slice`. The inverse encoders `LeU16`/`LeU32` are the
    partner used by every record round trip. */
module BinaryView {
  import opened Results

  type byte = x: int | 0 <= x < 0x100
  type u16 = x: int | 0 <= x < 0x1_0000
  type u32 = x: int | 0 <= x < 0x1_0000_0000

  /** The value of the two bytes at `off`, least significant first. */
  function U16At(b: seq<byte>, off: nat): u16
    requires off + 2 <= |b|
  {
    b[off] as int + 0x100 * b[off + 1] as int
  }

  /** The value of the four bytes at `off`, least significant first. */
  function U32At(b: seq<byte>, off: nat): u32
    requires off + 4 <= |b|
  {
    b[off] as int + 0x100 * (b[off + 1] as int + 0x100 * (b[off + 2] as int + 0x100 * b[off + 3] as int))
  }

  /** The little-endian encoding of a 16-bit value. */
  function LeU16(v: u16): (r: seq<byte>)
    ensures |r| == 2
  {
    [v % 0x100, v / 0x100]
  }

  /** The little-endian encoding of a 32-bit value. */
  function LeU32(v: u32): (r: seq<byte>)
    ensures |r| == 4
  {
    [v % 0x100, v / 0x100 % 0x100, v / 0x100 / 0x100 % 0x100, v / 0x100 / 0x100 / 0x100]
  }

  /** Decoding undoes encoding. */
  lemma LeU16Decodes(v: u16)
    ensures U16At(LeU16(v), 0) == v
  {
  }

  lemma LeU32Decodes(v: u32)
    ensures U32At(LeU32(v), 0) == v
  {
  }

  /** Encoding undoes decoding: the two bytes read are exactly the encoding of the value. */
  lemma U16AtEncodes(b: seq<byte>, off: nat)
    requires off + 2 <= |b|
    ensures LeU16(U16At(b, off)) == b[off..off + 2]
  {
  }

  lemma U32AtEncodes(b: seq<byte>, off: nat)
    requires off + 4 <= |b|
    ensures LeU32(U32At(b, off)) == b[off..off + 4]
  {
    var hi := b[off + 1] as int + 0x100 * (b[off + 2] as int + 0x100 * b[off + 3] as int);
    var top := b[off + 2] as int + 0x100 * b[off + 3] as int;
    SplitLowByte(b[off], hi);
    SplitLowByte(b[off + 1], top);
    SplitLowByte(b[off + 2], b[off + 3]);
  }

  /** Splitting off the least significant byte of `lo + 256 * hi`. */
  lemma SplitLowByte(lo: byte, hi: nat)
    ensures (lo as int + 0x100 * hi) % 0x100 == lo
    ensures (lo as int + 0x100 * hi) / 0x100 == hi
  {
  }

  /** `DataView.getUint16(off, true)`: throws when the two bytes do not fit. */
  function ReadU16(b: seq<byte>, off: nat): (r: Result<u16>)
    ensures r.Ok? <==> off + 2 <= |b|
    ensures r.Ok? ==> r.value == b[off] as int + 0x100 * b[off + 1] as int
    ensures r.Err? ==> r.error == RangeError
  {
    if off + 2 <= |b| then Ok(U16At(b, off))
    else
      Err(RangeError)
  }

  /** `DataView.getUint32(off, true)`: throws when the four bytes do not fit. */
  function ReadU32(b: seq<byte>, off: nat): (r: Result<u32>)
    ensures r.Ok? <==> off + 4 <= |b|
    ensures r.Ok? ==> r.value == b[off] as int + 0x100 * b[off + 1] as int + 0x1_0000 * b[off + 2] as int + 0x100_0000 * b[off + 3] as int
    ensures r.Err? ==> r.error == RangeError
  {
    if off + 4 <= |b| then Ok(U32At(b, off))
    else
      Err(RangeError)
  }

  /** The bounds check of `readString`: a view of `len` bytes at `off` exists only
      when it ends within the buffer. The bytes are returned undecoded. */
  function ReadBytes(b: seq<byte>, off: nat, len: nat): (r: Result<seq<byte>>)
    ensures r.Ok? <==> off + len <= |b|
    ensures r.Ok? ==> |r.value| == len
    ensures r.Ok? ==> forall i :: 0 <= i < len ==> r.value[i] == b[off + i]
    ensures r.Err? ==> r.error == RangeError
  {
    if off + len <= |b| then Ok(b[off..off + len]) else Err(RangeError)
  }

  function Min(x: int, y: int): int {
    if x <= y then x else y
  }

  /** `ArrayBuffer.prototype.slice(start, end)` for non-negative arguments: both
      ends are clamped to the buffer length and an inverted range is empty; it
      never throws. */
  function Slice(b: seq<byte>, start: nat, end: nat): (r: seq<byte>)
    ensures start < Min(end, |b|) ==> r == b[start..Min(end, |b|)]
    ensures Min(end, |b|) <= start ==> r == []
  {
    var first := Min(start, |b|);
    var final := Min(end, |b|);
    if final <= first then [] else b[first..final]
  }

  /** Within the buffer, the clamping slice is the plain subsequence. */
  lemma SliceInBounds(b: seq<byte>, start: nat, end: nat)
    requires start <= end <= |b|
    ensures Slice(b, start, end) == b[start..end]
  {
  }

  /** Slices of two buffers of one length that agree from `start` on are equal. */
  lemma SliceAgrees(b: seq<byte>, b2: seq<byte>, start: nat, end: nat)
    requires |b| == |b2|
    requires forall i :: start <= i < |b| ==> b[i] == b2[i]
    ensures Slice(b, start, end) == Slice(b2, start, end)
  {
    var first := Min(start, |b|);
    var final := Min(end, |b|);
    if first < final {
      assert b[first..final] == b2[first..final];
    }
  }

  /** `b2` is `b` with at most the bytes in `[lo, hi)` changed. */
  ghost predicate AgreeOutside(b: seq<byte>, b2: seq<byte>, lo: nat, hi: nat) {
    |b| == |b2| && forall i :: 0 <= i < |b| && !(lo <= i < hi) ==> b[i] == b2[i]
  }

  /** `x` occurs in `b` starting at `off`. */
  ghost predicate Embeds(b: seq<byte>, off: nat, x: seq<byte>) {
    off + |x| <= |b| && forall i :: 0 <= i < |x| ==> b[off + i] == x[i]
  }

  lemma EmbedsMiddle(p: seq<byte>, x: seq<byte>, s: seq<byte>)
    ensures Embeds(p + x + s, |p|, x)
  {
  }

  /** An embedded concatenation embeds both of its parts, one after the other. */
  lemma EmbedsSplit(b: seq<byte>, off: nat, x: seq<byte>, y: seq<byte>)
    requires Embeds(b, off, x + y)
    ensures Embeds(b, off, x) && Embeds(b, off + |x|, y)
  {
    forall i | 0 <= i < |x|
      ensures b[off + i] == x[i]
    {
      assert (x + y)[i] == x[i];
    }
    forall i | 0 <= i < |y|
      ensures b[off + |x| + i] == y[i]
    {
      assert (x + y)[|x| + i] == y[i];
    }
  }

  /** Two embeddings side by side embed their concatenation. */
  lemma EmbedsJoin(b: seq<byte>, off: nat, x: seq<byte>, y: seq<byte>)
    requires Embeds(b, off, x) && Embeds(b, off + |x|, y)
    ensures Embeds(b, off, x + y)
  {
    forall i | 0 <= i < |x + y|
      ensures b[off + i] == (x + y)[i]
    {
      if i >= |x| {
        assert b[off + |x| + (i - |x|)] == y[i - |x|];
      }
    }
  }

  lemma EmbedsSlice(b: seq<byte>, i: nat, j: nat)
    requires i <= j <= |b|
    ensures Embeds(b, i, b[i..j])
  {
  }

  /** An embedding is a slice of the buffer. */
  lemma EmbeddedIsSlice(b: seq<byte>, off: nat, x: seq<byte>)
    requires Embeds(b, off, x)
    ensures b[off..off + |x|] == x
  {
  }

  /** The bytes of a buffer embed the encoding of the value read from them. */
  lemma EmbedsU16(b: seq<byte>, off: nat)
    requires off + 2 <= |b|
    ensures Embeds(b, off, LeU16(U16At(b, off)))
  {
    U16AtEncodes(b, off);
  }

  lemma EmbedsU32(b: seq<byte>, off: nat)
    requires off + 4 <= |b|
    ensures Embeds(b, off, LeU32(U32At(b, off)))
  {
    U32AtEncodes(b, off);
  }

  /** Reading an embedded encoding yields the encoded value. */
  lemma ReadU16Embedded(b: seq<byte>, off: nat, v: u16)
    requires Embeds(b, off, LeU16(v))
    ensures ReadU16(b, off) == Ok(v)
  {
    assert b[off] == LeU16(v)[0] && b[off + 1] == LeU16(v)[1];
    LeU16Decodes(v);
  }

  lemma ReadU32Embedded(b: seq<byte>, off: nat, v: u32)
    requires Embeds(b, off, LeU32(v))
    ensures ReadU32(b, off) == Ok(v)
  {
    assert b[off] == LeU32(v)[0] && b[off + 1] == LeU32(v)[1];
    assert b[off + 2] == LeU32(v)[2] && b[off + 3] == LeU32(v)[3];
    LeU32Decodes(v);
  }

  lemma ReadBytesEmbedded(b: seq<byte>, off: nat, x: seq<byte>)
    requires Embeds(b, off, x)
    ensures ReadBytes(b, off, |x|) == Ok(x)
  {
    assert b[off..off + |x|] == x;
  }
}

=== FILE: central_directory.dfy ===
/** Central directory file headers (section 4.3.12 of the PKWARE .ZIP File
    Format Specification) and the directory-driven traversal that reads them. */
module CentralDirectory {
  import opened Results
  import opened BinaryView

  /** Size of a header before its file name, extra field and comment. */
  const HeaderSize: nat := 46

  datatype CentralFileHeader = CentralFileHeader(
    signature: u32,
    madeByVersion: u16,
    extractVersion: u16,
    generalPurposeFlags: u16,
    compressionMethod: u16,
    lastModifiedTime: u16,
    lastModifiedDate: u16,
    crc: u32,
    compressedSize: u32,
    uncompressedSize: u32,
    fileNameLength: u16,
    extraLength: u16,
    commentLength: u16,
    diskNumber: u16,
    internalAttributes: u16,
    externalAttributes: u32,
    localFileHeaderOffset: u32,
    /** Where the following header starts; not a stored field. */
    nextEntryByteOffset: nat,
    fileName: seq<byte>,
    extra: seq<byte>,
    comment: seq<byte>)

  /** The number of bytes a header at `off` occupies, read from its three length fields. */
  function VariableLength(b: seq<byte>, off: nat): nat
    requires off + HeaderSize <= |b|
  {
    U16At(b, off + 28) + U16At(b, off + 30) + U16At(b, off + 32)
  }

  /** The `CentralFileHeader` constructor at `off`, in closed form. The
      constructor reads the seventeen fixed fields one after another, and each
      read throws when it overruns the buffer, so together they throw exactly
      when the 46 fixed bytes do not fit; it then views the file name, extra
      field and comment, and the comment's view ends furthest.
      `CentralFileHeaderStepwise` follows the constructor read by read, and
      `CentralFileHeaderStepwiseAgrees` shows the two are the same. */
  function ParseCentralFileHeader(b: seq<byte>, off: nat): (r: Result<CentralFileHeader>)
    ensures r.Ok? <==> off + HeaderSize <= |b| && off + HeaderSize + VariableLength(b, off) <= |b|
    ensures r.Err? ==> r.error == RangeError
    ensures r.Ok? ==> WellFormedAt(r.value, off)
    ensures r.Ok? ==> r.value.nextEntryByteOffset <= |b|
  {
    if off + HeaderSize > |b| then
      Err(RangeError)
    else
      var nameAt := off + HeaderSize;
      var extraAt := nameAt + U16At(b, off + 28);
      var commentAt := extraAt + U16At(b, off + 30);
      var next := commentAt + U16At(b, off + 32);
      if next > |b| then
        Err(RangeError)
      else
        Ok(CentralFileHeader(
          U32At(b, off), U16At(b, off + 4), U16At(b, off + 6), U16At(b, off + 8),
          U16At(b, off + 10), U16At(b, off + 12), U16At(b, off + 14),
          U32At(b, off + 16), U32At(b, off + 20), U32At(b, off + 24),
          U16At(b, off + 28), U16At(b, off + 30), U16At(b, off + 32),
          U16At(b, off + 34), U16At(b, off + 36), U32At(b, off + 38), U32At(b, off + 42),
          next, b[nameAt..extraAt], b[extraAt..commentAt], b[commentAt..next]))
  }

  /** The `CentralFileHeader` constructor read by read, in the order it makes them. */
  function CentralFileHeaderStepwise(b: seq<byte>, off: nat): Result<CentralFileHeader>
  {
    var signature :- ReadU32(b, off);
    var madeByVersion :- ReadU16(b, off + 4);
    var extractVersion :- ReadU16(b, off + 6);
    var generalPurposeFlags :- ReadU16(b, off + 8);
    var compressionMethod :- ReadU16(b, off + 10);
    var lastModifiedTime :- ReadU16(b, off + 12);
    var lastModifiedDate :- ReadU16(b, off + 14);
    var crc :- ReadU32(b, off + 16);
    var compressedSize :- ReadU32(b, off + 20);
    var uncompressedSize :- ReadU32(b, off + 24);
    var fileNameLength :- ReadU16(b, off + 28);
    var extraLength :- ReadU16(b, off + 30);
    var commentLength :- ReadU16(b, off + 32);
    var diskNumber :- ReadU16(b, off + 34);
    var internalAttributes :- ReadU16(b, off + 36);
    var externalAttributes :- ReadU32(b, off + 38);
    var localFileHeaderOffset :- ReadU32(b, off + 42);
    var fileName :- ReadBytes(b, off + 46, fileNameLength);
    var extra :- ReadBytes(b, off + 46 + fileNameLength, extraLength);
    var comment :- ReadBytes(b, off + 46 + fileNameLength + extraLength, commentLength);
    var nextEntryByteOffset := off + 46 + fileNameLength + extraLength + commentLength;
    Ok(CentralFileHeader(
      signature, madeByVersion, extractVersion, generalPurposeFlags, compressionMethod,
      lastModifiedTime, lastModifiedDate, crc, compressedSize, uncompressedSize,
      fileNameLength, extraLength, commentLength, diskNumber, internalAttributes,
      externalAttributes, localFileHeaderOffset, nextEntryByteOffset,
      fileName, extra, comment))
  }

  /** Reading field by field and reading in closed form agree on every buffer. */
  lemma CentralFileHeaderStepwiseAgrees(b: seq<byte>, off: nat)
    ensures CentralFileHeaderStepwise(b, off) == ParseCentralFileHeader(b, off)
  {
  }

  /** The field layout of a header at `off`: each fixed field at its offset,
      then the file name, extra field and comment one after the other, and the
      next header right behind the comment. A proof aid that spells out the
      parser's reads, not a contract. */
  ghost predicate FieldsAt(b: seq<byte>, off: nat, h: CentralFileHeader) {
    && off + HeaderSize <= |b|
    && h.fileNameLength == U16At(b, off + 28)
    && h.extraLength == U16At(b, off + 30)
    && h.commentLength == U16At(b, off + 32)
    && h.nextEntryByteOffset == off + HeaderSize + h.fileNameLength + h.extraLength + h.commentLength
    && h.nextEntryByteOffset <= |b|
    && h.signature == U32At(b, off)
    && h.madeByVersion == U16At(b, off + 4)
    && h.extractVersion == U16At(b, off + 6)
    && h.generalPurposeFlags == U16At(b, off + 8)
    && h.compressionMethod == U16At(b, off + 10)
    && h.lastModifiedTime == U16At(b, off + 12)
    && h.lastModifiedDate == U16At(b, off + 14)
    && h.crc == U32At(b, off + 16)
    && h.compressedSize == U32At(b, off + 20)
    && h.uncompressedSize == U32At(b, off + 24)
    && h.diskNumber == U16At(b, off + 34)
    && h.internalAttributes == U16At(b, off + 36)
    && h.externalAttributes == U32At(b, off + 38)
    && h.localFileHeaderOffset == U32At(b, off + 42)
    && h.fileName == b[off + HeaderSize..off + HeaderSize + h.fileNameLength]
    && h.extra == b[off + HeaderSize + h.fileNameLength..off + HeaderSize + h.fileNameLength + h.extraLength]
    && h.comment == b[off + HeaderSize + h.fileNameLength + h.extraLength..h.nextEntryByteOffset]
  }

  /** A header that parses is laid out field by field as the constructor reads it.
      This only unfolds the parser, as a proof step; the specification of the
      layout is `CentralFileHeaderReencodes`. */
  lemma CentralFileHeaderFields(b: seq<byte>, off: nat)
    requires ParseCentralFileHeader(b, off).Ok?
    ensures FieldsAt(b, off, ParseCentralFileHeader(b, off).value)
  {
  }

  /** A header that could have been read at `off`: its lengths agree with its
      variable parts and its successor starts right after them. */
  predicate WellFormedAt(h: CentralFileHeader, off: nat) {
    && |h.fileName| == h.fileNameLength
    && |h.extra| == h.extraLength
    && |h.comment| == h.commentLength
    && h.nextEntryByteOffset == off + HeaderSize + h.fileNameLength + h.extraLength + h.commentLength
  }

  /** The converse round trip: a header that parses encodes back to exactly
      the bytes from its offset up to where the next header starts. */
  lemma CentralFileHeaderReencodes(b: seq<byte>, off: nat)
    requires ParseCentralFileHeader(b, off).Ok?
    ensures var h := ParseCentralFileHeader(b, off).value;
            off <= h.nextEntryByteOffset && b[off..h.nextEntryByteOffset] == EncodeCentralFileHeader(h)
  {
    CentralFileHeaderFields(b, off);
    FieldsReencode(b, off, ParseCentralFileHeader(b, off).value);
  }

  /** The bytes of a header laid out at `off` are its encoding. */
  lemma FieldsReencode(b: seq<byte>, off: nat, h: CentralFileHeader)
    requires FieldsAt(b, off, h)
    ensures b[off..h.nextEntryByteOffset] == EncodeCentralFileHeader(h)
  {
    LeadingFieldsEmbedded(b, off, h);
    TrailingFieldsEmbedded(b, off, h);
    var e17 := LeU32(h.signature) + LeU16(h.madeByVersion) + LeU16(h.extractVersion)
              + LeU16(h.generalPurposeFlags) + LeU16(h.compressionMethod)
              + LeU16(h.lastModifiedTime) + LeU16(h.lastModifiedDate)
              + LeU32(h.crc) + LeU32(h.compressedSize) + LeU32(h.uncompressedSize)
              + LeU16(h.fileNameLength) + LeU16(h.extraLength) + LeU16(h.commentLength)
              + LeU16(h.diskNumber) + LeU16(h.internalAttributes)
              + LeU32(h.externalAttributes) + LeU32(h.localFileHeaderOffset);
    EmbedsSlice(b, off + HeaderSize, off + HeaderSize + h.fileNameLength);
    EmbedsJoin(b, off, e17, h.fileName);
    var e18 := e17 + h.fileName;
    EmbedsSlice(b, off + HeaderSize + h.fileNameLength, off + HeaderSize + h.fileNameLength + h.extraLength);
    EmbedsJoin(b, off, e18, h.extra);
    var e19 := e18 + h.extra;
    EmbedsSlice(b, off + HeaderSize + h.fileNameLength + h.extraLength, h.nextEntryByteOffset);
    EmbedsJoin(b, off, e19, h.comment);
    var e20 := e19 + h.comment;
    EmbeddedIsSlice(b, off, e20);
  }

  /** The remaining seven fixed fields follow the first ten as encoded. */
  lemma TrailingFieldsEmbedded(b: seq<byte>, off: nat, h: CentralFileHeader)
    requires FieldsAt(b, off, h)
    requires Embeds(b, off, LeU32(h.signature) + LeU16(h.madeByVersion) + LeU16(h.extractVersion)
            + LeU16(h.generalPurposeFlags) + LeU16(h.compressionMethod)
            + LeU16(h.lastModifiedTime) + LeU16(h.lastModifiedDate)
            + LeU32(h.crc) + LeU32(h.compressedSize) + LeU32(h.uncompressedSize))
    ensures Embeds(b, off, LeU32(h.signature) + LeU16(h.madeByVersion) + LeU16(h.extractVersion)
            + LeU16(h.generalPurposeFlags) + LeU16(h.compressionMethod)
            + LeU16(h.lastModifiedTime) + LeU16(h.lastModifiedDate)
            + LeU32(h.crc) + LeU32(h.compressedSize) + LeU32(h.uncompressedSize)
            + LeU16(h.fileNameLength) + LeU16(h.extraLength) + LeU16(h.commentLength)
            + LeU16(h.diskNumber) + LeU16(h.internalAttributes)
            + LeU32(h.externalAttributes) + LeU32(h.localFileHeaderOffset))
  {
    var e10 := LeU32(h.signature) + LeU16(h.madeByVersion) + LeU16(h.extractVersion)
              + LeU16(h.generalPurposeFlags) + LeU16(h.compressionMethod)
              + LeU16(h.lastModifiedTime) + LeU16(h.lastModifiedDate)
              + LeU32(h.crc) + LeU32(h.compressedSize) + LeU32(h.uncompressedSize);
    EmbedsU16(b, off + 28);
    EmbedsJoin(b, off, e10, LeU16(h.fileNameLength));
    var e11 := e10 + LeU16(h.fileNameLength);
    EmbedsU16(b, off + 30);
    EmbedsJoin(b, off, e11, LeU16(h.extraLength));
    var e12 := e11 + LeU16(h.extraLength);
    EmbedsU16(b, off + 32);
    EmbedsJoin(b, off, e12, LeU16(h.commentLength));
    var e13 := e12 + LeU16(h.commentLength);
    EmbedsU16(b, off + 34);
    EmbedsJoin(b, off, e13, LeU16(h.diskNumber));
    var e14 := e13 + LeU16(h.diskNumber);
    EmbedsU16(b, off + 36);
    EmbedsJoin(b, off, e14, LeU16(h.internalAttributes));
    var e15 := e14 + LeU16(h.internalAttributes);
    EmbedsU32(b, off + 38);
    EmbedsJoin(b, off, e15, LeU32(h.externalAttributes));
    var e16 := e15 + LeU32(h.externalAttributes);
    EmbedsU32(b, off + 42);
    EmbedsJoin(b, off, e16, LeU32(h.localFileHeaderOffset));
  }

  /** The first ten fields, up to the uncompressed size, sit in the buffer as encoded. */
  lemma LeadingFieldsEmbedded(b: seq<byte>, off: nat, h: CentralFileHeader)
    requires FieldsAt(b, off, h)
    ensures Embeds(b, off, LeU32(h.signature) + LeU16(h.madeByVersion) + LeU16(h.extractVersion)
            + LeU16(h.generalPurposeFlags) + LeU16(h.compressionMethod)
            + LeU16(h.lastModifiedTime) + LeU16(h.lastModifiedDate)
            + LeU32(h.crc) + LeU32(h.compressedSize) + LeU32(h.uncompressedSize))
  {
    EmbedsU32(b, off);
    var e1 := LeU32(h.signature);
    EmbedsU16(b, off + 4);
    EmbedsJoin(b, off, e1, LeU16(h.madeByVersion));
    var e2 := e1 + LeU16(h.madeByVersion);
    EmbedsU16(b, off + 6);
    EmbedsJoin(b, off, e2, LeU16(h.extractVersion));
    var e3 := e2 + LeU16(h.extractVersion);
    EmbedsU16(b, off + 8);
    EmbedsJoin(b, off, e3, LeU16(h.generalPurposeFlags));
    var e4 := e3 + LeU16(h.generalPurposeFlags);
    EmbedsU16(b, off + 10);
    EmbedsJoin(b, off, e4, LeU16(h.compressionMethod));
    var e5 := e4 + LeU16(h.compressionMethod);
    EmbedsU16(b, off + 12);
    EmbedsJoin(b, off, e5, LeU16(h.lastModifiedTime));
    var e6 := e5 + LeU16(h.lastModifiedTime);
    EmbedsU16(b, off + 14);
    EmbedsJoin(b, off, e6, LeU16(h.lastModifiedDate));
    var e7 := e6 + LeU16(h.lastModifiedDate);
    EmbedsU32(b, off + 16);
    EmbedsJoin(b, off, e7, LeU32(h.crc));
    var e8 := e7 + LeU32(h.crc);
    EmbedsU32(b, off + 20);
    EmbedsJoin(b, off, e8, LeU32(h.compressedSize));
    var e9 := e8 + LeU32(h.compressedSize);
    EmbedsU32(b, off + 24);
    EmbedsJoin(b, off, e9, LeU32(h.uncompressedSize));
  }

  /** The signature is recorded, never checked: rewriting the first four bytes
      of a header, whether or not they hold 0x02014b50, changes neither whether
      it parses nor any field other than `signature`. */
  lemma SignatureNotChecked(b: seq<byte>, b2: seq<byte>, off: nat)
    requires AgreeOutside(b, b2, off, off + 4)
    ensures ParseCentralFileHeader(b, off).Ok? <==> ParseCentralFileHeader(b2, off).Ok?
    ensures ParseCentralFileHeader(b, off).Ok? ==>
              ParseCentralFileHeader(b2, off).value
              == ParseCentralFileHeader(b, off).value.(signature := U32At(b2, off))
  {
    if off + HeaderSize <= |b| {
      assert VariableLength(b, off) == VariableLength(b2, off);
      if off + HeaderSize + VariableLength(b, off) <= |b| {
        var h := ParseCentralFileHeader(b, off).value;
        assert b[off + HeaderSize..h.nextEntryByteOffset] == b2[off + HeaderSize..h.nextEntryByteOffset];
      }
    }
  }

  /** The bytes of a header, the inverse of `ParseCentralFileHeader`. */
  function EncodeCentralFileHeader(h: CentralFileHeader): (r: seq<byte>)
    ensures |r| == HeaderSize + |h.fileName| + |h.extra| + |h.comment|
  {
    LeU32(h.signature) + LeU16(h.madeByVersion) + LeU16(h.extractVersion)
    + LeU16(h.generalPurposeFlags) + LeU16(h.compressionMethod)
    + LeU16(h.lastModifiedTime) + LeU16(h.lastModifiedDate)
    + LeU32(h.crc) + LeU32(h.compressedSize) + LeU32(h.uncompressedSize)
    + LeU16(h.fileNameLength) + LeU16(h.extraLength) + LeU16(h.commentLength)
    + LeU16(h.diskNumber) + LeU16(h.internalAttributes)
    + LeU32(h.externalAttributes) + LeU32(h.localFileHeaderOffset)
    + h.fileName + h.extra + h.comment
  }

  /** Every read the parser makes of an embedded header returns the encoded field. */
  lemma CentralFileHeaderReadsBack(b: seq<byte>, off: nat, h: CentralFileHeader)
    requires Embeds(b, off, EncodeCentralFileHeader(h))
    ensures ReadU32(b, off) == Ok(h.signature)
    ensures ReadU16(b, off + 4) == Ok(h.madeByVersion)
    ensures ReadU16(b, off + 6) == Ok(h.extractVersion)
    ensures ReadU16(b, off + 8) == Ok(h.generalPurposeFlags)
    ensures ReadU16(b, off + 10) == Ok(h.compressionMethod)
    ensures ReadU16(b, off + 12) == Ok(h.lastModifiedTime)
    ensures ReadU16(b, off + 14) == Ok(h.lastModifiedDate)
    ensures ReadU32(b, off + 16) == Ok(h.crc)
    ensures ReadU32(b, off + 20) == Ok(h.compressedSize)
    ensures ReadU32(b, off + 24) == Ok(h.uncompressedSize)
    ensures ReadU16(b, off + 28) == Ok(h.fileNameLength)
    ensures ReadU16(b, off + 30) == Ok(h.extraLength)
    ensures ReadU16(b, off + 32) == Ok(h.commentLength)
    ensures ReadU16(b, off + 34) == Ok(h.diskNumber)
    ensures ReadU16(b, off + 36) == Ok(h.internalAttributes)
    ensures ReadU32(b, off + 38) == Ok(h.externalAttributes)
    ensures ReadU32(b, off + 42) == Ok(h.localFileHeaderOffset)
    ensures ReadBytes(b, off + 46, |h.fileName|) == Ok(h.fileName)
    ensures ReadBytes(b, off + 46 + |h.fileName|, |h.extra|) == Ok(h.extra)
    ensures ReadBytes(b, off + 46 + |h.fileName| + |h.extra|, |h.comment|) == Ok(h.comment)
  {
    // the header's prefixes, one field longer each time
    var e1 := LeU32(h.signature);
    var e2 := e1 + LeU16(h.madeByVersion);
    var e3 := e2 + LeU16(h.extractVersion);
    var e4 := e3 + LeU16(h.generalPurposeFlags);
    var e5 := e4 + LeU16(h.compressionMethod);
    var e6 := e5 + LeU16(h.lastModifiedTime);
    var e7 := e6 + LeU16(h.lastModifiedDate);
    var e8 := e7 + LeU32(h.crc);
    var e9 := e8 + LeU32(h.compressedSize);
    var e10 := e9 + LeU32(h.uncompressedSize);
    var e11 := e10 + LeU16(h.fileNameLength);
    var e12 := e11 + LeU16(h.extraLength);
    var e13 := e12 + LeU16(h.commentLength);
    var e14 := e13 + LeU16(h.diskNumber);
    var e15 := e14 + LeU16(h.internalAttributes);
    var e16 := e15 + LeU32(h.externalAttributes);
    var e17 := e16 + LeU32(h.localFileHeaderOffset);
    var e18 := e17 + h.fileName;
    var e19 := e18 + h.extra;
    EmbedsSplit(b, off, e19, h.comment);
    EmbedsSplit(b, off, e18, h.extra);
    EmbedsSplit(b, off, e17, h.fileName);
    EmbedsSplit(b, off, e16, LeU32(h.localFileHeaderOffset));
    EmbedsSplit(b, off, e15, LeU32(h.externalAttributes));
    EmbedsSplit(b, off, e14, LeU16(h.internalAttributes));
    EmbedsSplit(b, off, e13, LeU16(h.diskNumber));
    EmbedsSplit(b, off, e12, LeU16(h.commentLength));
    EmbedsSplit(b, off, e11, LeU16(h.extraLength));
    EmbedsSplit(b, off, e10, LeU16(h.fileNameLength));
    EmbedsSplit(b, off, e9, LeU32(h.uncompressedSize));
    EmbedsSplit(b, off, e8, LeU32(h.compressedSize));
    EmbedsSplit(b, off, e7, LeU32(h.crc));
    EmbedsSplit(b, off, e6, LeU16(h.lastModifiedDate));
    EmbedsSplit(b, off, e5, LeU16(h.lastModifiedTime));
    EmbedsSplit(b, off, e4, LeU16(h.compressionMethod));
    EmbedsSplit(b, off, e3, LeU16(h.generalPurposeFlags));
    EmbedsSplit(b, off, e2, LeU16(h.extractVersion));
    EmbedsSplit(b, off, e1, LeU16(h.madeByVersion));
    ReadU32Embedded(b, off, h.signature);
    ReadU16Embedded(b, off + 4, h.madeByVersion);
    ReadU16Embedded(b, off + 6, h.extractVersion);
    ReadU16Embedded(b, off + 8, h.generalPurposeFlags);
    ReadU16Embedded(b, off + 10, h.compressionMethod);
    ReadU16Embedded(b, off + 12, h.lastModifiedTime);
    ReadU16Embedded(b, off + 14, h.lastModifiedDate);
    ReadU32Embedded(b, off + 16, h.crc);
    ReadU32Embedded(b, off + 20, h.compressedSize);
    ReadU32Embedded(b, off + 24, h.uncompressedSize);
    ReadU16Embedded(b, off + 28, h.fileNameLength);
    ReadU16Embedded(b, off + 30, h.extraLength);
    ReadU16Embedded(b, off + 32, h.commentLength);
    ReadU16Embedded(b, off + 34, h.diskNumber);
    ReadU16Embedded(b, off + 36, h.internalAttributes);
    ReadU32Embedded(b, off + 38, h.externalAttributes);
    ReadU32Embedded(b, off + 42, h.localFileHeaderOffset);
    ReadBytesEmbedded(b, off + 46, h.fileName);
    ReadBytesEmbedded(b, off + 46 + |h.fileName|, h.extra);
    ReadBytesEmbedded(b, off + 46 + |h.fileName| + |h.extra|, h.comment);
  }

  /** Parsing an encoded header, wherever it sits in a buffer, gives it back. */
  lemma CentralFileHeaderRoundTrip(p: seq<byte>, h: CentralFileHeader, s: seq<byte>)
    requires WellFormedAt(h, |p|)
    ensures ParseCentralFileHeader(p + EncodeCentralFileHeader(h) + s, |p|) == Ok(h)
  {
    EmbedsMiddle(p, EncodeCentralFileHeader(h), s);
    CentralFileHeaderEmbedded(p + EncodeCentralFileHeader(h) + s, |p|, h);
  }

  lemma CentralFileHeaderEmbedded(b: seq<byte>, off: nat, h: CentralFileHeader)
    requires Embeds(b, off, EncodeCentralFileHeader(h)) && WellFormedAt(h, off)
    ensures ParseCentralFileHeader(b, off) == Ok(h)
  {
    CentralFileHeaderReadsBack(b, off, h);
    assert ParseCentralFileHeader(b, off).Ok?;
    CentralFileHeaderFields(b, off);
  }

  /** Where the `k`-th header of a walk starting at `offset` begins: the walk's
      start for the first one, its predecessor's `nextEntryByteOffset` after that. */
  function EntryStart(offset: nat, hs: seq<CentralFileHeader>, k: nat): nat
    requires k < |hs|
  {
    if k == 0 then offset else hs[k - 1].nextEntryByteOffset
  }

  /** `hs` is what the directory walk from `offset` reads: every header parses
      successfully where its predecessor says it starts. */
  ghost predicate IsDirectoryWalk(b: seq<byte>, offset: nat, hs: seq<CentralFileHeader>) {
    forall k {:trigger EntryStart(offset, hs, k)} :: 0 <= k < |hs| ==>
      ParseCentralFileHeader(b, EntryStart(offset, hs, k)) == Ok(hs[k])
  }

  /** The loop of the `ZipArchive` constructor: read exactly `count` headers,
      the first at `offset`, each next one where the previous one ends. Any
      header that does not fit in the buffer aborts the whole walk. */
  function ReadCentralDirectory(b: seq<byte>, offset: nat, count: nat): (r: Result<seq<CentralFileHeader>>)
    ensures r.Ok? ==> |r.value| == count && IsDirectoryWalk(b, offset, r.value)
    ensures r.Err? ==> r.error == RangeError
    decreases count
  {
    if count == 0 then
      Ok([])
    else
      var file :- ParseCentralFileHeader(b, offset);
      var rest :- ReadCentralDirectory(b, file.nextEntryByteOffset, count - 1);
      var r := [file] + rest;
      assert forall k :: 1 <= k < |r| ==> EntryStart(offset, r, k) == EntryStart(file.nextEntryByteOffset, rest, k - 1);
      Ok(r)
  }

  /** The converse: a walk of `|hs|` headers is exactly what the traversal
      returns, so the traversal fails only when no such walk exists. */
  lemma {:induction false} DirectoryWalkIsRead(b: seq<byte>, offset: nat, hs: seq<CentralFileHeader>)
    requires IsDirectoryWalk(b, offset, hs)
    ensures ReadCentralDirectory(b, offset, |hs|) == Ok(hs)
    decreases |hs|
  {
    if |hs| > 0 {
      DirectoryWalkTail(b, offset, hs);
      var rest := hs[1..];
      DirectoryWalkIsRead(b, hs[0].nextEntryByteOffset, rest);
      ReadCentralDirectoryStep(b, offset, hs[0], rest);
      assert hs == [hs[0]] + rest;
    }
  }

  /** One step of the traversal: a header that parses, then the rest read from where it ends. */
  lemma ReadCentralDirectoryStep(b: seq<byte>, offset: nat, h: CentralFileHeader, rest: seq<CentralFileHeader>)
    requires ParseCentralFileHeader(b, offset) == Ok(h)
    requires ReadCentralDirectory(b, h.nextEntryByteOffset, |rest|) == Ok(rest)
    ensures ReadCentralDirectory(b, offset, |rest| + 1) == Ok([h] + rest)
  {
  }

  /** A walk is its first header followed by a walk from where that header ends. */
  lemma DirectoryWalkTail(b: seq<byte>, offset: nat, hs: seq<CentralFileHeader>)
    requires IsDirectoryWalk(b, offset, hs) && |hs| > 0
    ensures ParseCentralFileHeader(b, offset) == Ok(hs[0])
    ensures IsDirectoryWalk(b, hs[0].nextEntryByteOffset, hs[1..])
  {
    assert EntryStart(offset, hs, 0) == offset;
    var rest := hs[1..];
    forall k | 0 <= k < |rest|
      ensures ParseCentralFileHeader(b, EntryStart(hs[0].nextEntryByteOffset, rest, k)) == Ok(rest[k])
    {
      assert EntryStart(hs[0].nextEntryByteOffset, rest, k) == EntryStart(offset, hs, k + 1);
    }
  }

  /** The cursor strictly advances: the `k`-th header of a walk starts at
      least `46 * k` bytes, and ends at least `46 * (k + 1)` bytes, after the
      walk's start. */
  lemma DirectoryWalkAdvances(b: seq<byte>, offset: nat, hs: seq<CentralFileHeader>, k: nat)
    requires IsDirectoryWalk(b, offset, hs)
    requires k < |hs|
    ensures EntryStart(offset, hs, k) >= offset + HeaderSize * k
    ensures hs[k].nextEntryByteOffset >= offset + HeaderSize * (k + 1)
  {
    DirectoryWalkIsLaidOut(b, offset, hs);
    LaidOutAdvances(offset, hs, k);
  }

  /** Every header of a walk is well formed where the walk found it. */
  lemma DirectoryWalkIsLaidOut(b: seq<byte>, offset: nat, hs: seq<CentralFileHeader>)
    requires IsDirectoryWalk(b, offset, hs)
    ensures LaidOutFrom(offset, hs)
  {
    forall k | 0 <= k < |hs|
      ensures WellFormedAt(hs[k], EntryStart(offset, hs, k))
    {
      assert ParseCentralFileHeader(b, EntryStart(offset, hs, k)) == Ok(hs[k]);
    }
  }

  lemma {:induction false} LaidOutAdvances(offset: nat, hs: seq<CentralFileHeader>, k: nat)
    requires LaidOutFrom(offset, hs)
    requires k < |hs|
    ensures EntryStart(offset, hs, k) >= offset + HeaderSize * k
    ensures hs[k].nextEntryByteOffset >= offset + HeaderSize * (k + 1)
  {
    assert WellFormedAt(hs[k], EntryStart(offset, hs, k));
    if k > 0 {
      LaidOutAdvances(offset, hs, k - 1);
    }
  }

  /** Consecutive headers, each laid out where its predecessor ends. */
  ghost predicate LaidOutFrom(offset: nat, hs: seq<CentralFileHeader>) {
    forall k {:trigger EntryStart(offset, hs, k)} :: 0 <= k < |hs| ==> WellFormedAt(hs[k], EntryStart(offset, hs, k))
  }

  /** The bytes of a whole central directory. */
  function EncodeCentralDirectory(hs: seq<CentralFileHeader>): seq<byte>
    decreases |hs|
  {
    if |hs| == 0 then [] else EncodeCentralFileHeader(hs[0]) + EncodeCentralDirectory(hs[1..])
  }

  /** The tail of a layout is laid out from where its first header ends. */
  lemma LaidOutTail(offset: nat, hs: seq<CentralFileHeader>)
    requires LaidOutFrom(offset, hs) && |hs| > 0
    ensures WellFormedAt(hs[0], offset)
    ensures LaidOutFrom(hs[0].nextEntryByteOffset, hs[1..])
  {
    assert EntryStart(offset, hs, 0) == offset;
    var rest := hs[1..];
    forall k | 0 <= k < |rest|
      ensures WellFormedAt(rest[k], EntryStart(hs[0].nextEntryByteOffset, rest, k))
    {
      assert EntryStart(hs[0].nextEntryByteOffset, rest, k) == EntryStart(offset, hs, k + 1);
    }
  }

  /** Walking an encoded central directory, wherever it sits in a buffer,
      gives back its headers. */
  lemma CentralDirectoryRoundTrip(p: seq<byte>, hs: seq<CentralFileHeader>, s: seq<byte>)
    requires LaidOutFrom(|p|, hs)
    ensures IsDirectoryWalk(p + EncodeCentralDirectory(hs) + s, |p|, hs)
    ensures ReadCentralDirectory(p + EncodeCentralDirectory(hs) + s, |p|, |hs|) == Ok(hs)
  {
    EmbedsMiddle(p, EncodeCentralDirectory(hs), s);
    CentralDirectoryEmbedded(p + EncodeCentralDirectory(hs) + s, |p|, hs);
  }

  lemma {:induction false} CentralDirectoryEmbedded(b: seq<byte>, off: nat, hs: seq<CentralFileHeader>)
    requires Embeds(b, off, EncodeCentralDirectory(hs)) && LaidOutFrom(off, hs)
    ensures ReadCentralDirectory(b, off, |hs|) == Ok(hs)
    decreases |hs|
  {
    if |hs| > 0 {
      var eh := EncodeCentralFileHeader(hs[0]);
      LaidOutTail(off, hs);
      EmbedsSplit(b, off, eh, EncodeCentralDirectory(hs[1..]));
      CentralFileHeaderEmbedded(b, off, hs[0]);
      CentralDirectoryEmbedded(b, off + |eh|, hs[1..]);
      ReadCentralDirectoryStep(b, off, hs[0], hs[1..]);
      assert [hs[0]] + hs[1..] == hs;
    }
  }
}

=== FILE: end_of_central_directory.dfy ===
/** The end-of-central-directory record (section 4.3.16 of the PKWARE .ZIP File
    Format Specification) and the backward scan that locates it. */
module EndOfCentralDirectory {
  import opened Results
  import opened BinaryView

  /** Size of the record when its comment is empty. */
  const RecordSize: nat := 22

  /** The record's signature, read as a little-endian 32-bit value. */
  const Signature: u32 := 0x06054b50

  /** The same signature as it is stored: "PK" followed by 5 and 6. */
  const SignatureBytes: seq<byte> := [0x50, 0x4B, 0x05, 0x06]

  datatype DirectoryEnd = DirectoryEnd(
    signature: seq<byte>,
    numberOfDisks: u16,
    centralDirectoryStartDisk: u16,
    numberCentralDirectoryRecordsOnThisDisk: u16,
    numberCentralDirectoryRecords: u16,
    centralDirectorySize: u32,
    centralDirectoryOffset: u32,
    commentLength: u16,
    comment: seq<byte>)

  /** The four bytes at `i` are the record signature. */
  predicate SignatureAt(b: seq<byte>, i: int) {
    && 0 <= i && i + 4 <= |b|
    && b[i] == SignatureBytes[0] && b[i + 1] == SignatureBytes[1]
    && b[i + 2] == SignatureBytes[2] && b[i + 3] == SignatureBytes[3]
  }

  /** Comparing the 32-bit read against the constant is comparing the bytes. */
  lemma SignatureValue(b: seq<byte>, i: nat)
    requires i + 4 <= |b|
    ensures U32At(b, i) == Signature <==> SignatureAt(b, i)
  {
    U32AtEncodes(b, i);
    assert LeU32(Signature) == SignatureBytes;
    if SignatureAt(b, i) {
      LeU32Decodes(Signature);
      assert U32At(LeU32(Signature), 0) == U32At(b, i);
    }
  }

  /** `i` is where the locator stops: a signature that still leaves room for a
      whole record, with no such signature after it. */
  ghost predicate IsLastSignature(b: seq<byte>, i: int) {
    && 0 <= i && i + RecordSize <= |b| && SignatureAt(b, i)
    && forall j :: i < j && j + RecordSize <= |b| ==> !SignatureAt(b, j)
  }

  /** The loop of `findEndOfCentralDirectory` from candidate `i` downwards. The
      precondition is the loop's starting point `|b| - 22`; it is what makes
      every probing 32-bit read fall inside the buffer. */
  function ScanBack(b: seq<byte>, i: int): (r: Option<nat>)
    requires i + RecordSize <= |b|
    ensures r.Some? ==> r.value <= i && SignatureAt(b, r.value)
    ensures r.Some? ==> forall j :: r.value < j <= i ==> !SignatureAt(b, j)
    ensures r.None? ==> forall j :: 0 <= j <= i ==> !SignatureAt(b, j)
    decreases i + 1
  {
    if i < 0 then
      None
    else
      var probe := ReadU32(b, i);
      SignatureValue(b, i);
      if probe.value == Signature then Some(i) else ScanBack(b, i - 1)
  }

  /** Where the backward scan finds the record, if anywhere. */
  function Locate(b: seq<byte>): (r: Option<nat>)
    ensures r.Some? ==> IsLastSignature(b, r.value)
    ensures r.None? <==> forall j :: 0 <= j && j + RecordSize <= |b| ==> !SignatureAt(b, j)
    ensures |b| < RecordSize ==> r.None?
  {
    ScanBack(b, |b| - RecordSize)
  }

  /** The scan's answer is determined by the buffer: it is the last signature. */
  lemma LocateFindsLast(b: seq<byte>, i: int)
    requires IsLastSignature(b, i)
    ensures Locate(b) == Some(i)
  {
    assert SignatureAt(b, i);
  }

  /** The `DirectoryEnd` constructor at `off`, in closed form: fixed fields at
      offsets 4 to 20, then a comment whose length is the field at offset 20.
      The fixed-field reads throw exactly when the 22 fixed bytes do not fit,
      the comment's view when the comment overruns the buffer.
      `DirectoryEndStepwise` follows the constructor read by read, and
      `DirectoryEndStepwiseAgrees` shows the two are the same. */
  function ParseDirectoryEnd(b: seq<byte>, off: nat): (r: Result<DirectoryEnd>)
    ensures r.Ok? <==> off + RecordSize <= |b| && off + RecordSize + U16At(b, off + 20) <= |b|
    ensures r.Err? ==> r.error == RangeError
  {
    if off + RecordSize > |b| then
      Err(RangeError)
    else
      var commentAt := off + RecordSize;
      var commentEnd := commentAt + U16At(b, off + 20);
      if commentEnd > |b| then
        Err(RangeError)
      else
        Ok(DirectoryEnd(b[off..off + 4], U16At(b, off + 4), U16At(b, off + 6), U16At(b, off + 8),
                        U16At(b, off + 10), U32At(b, off + 12), U32At(b, off + 16),
                        U16At(b, off + 20), b[commentAt..commentEnd]))
  }

  /** The `DirectoryEnd` constructor read by read, in the order it makes them. */
  function DirectoryEndStepwise(b: seq<byte>, off: nat): Result<DirectoryEnd>
  {
    var signature :- ReadBytes(b, off, 4);
    var numberOfDisks :- ReadU16(b, off + 4);
    var centralDirectoryStartDisk :- ReadU16(b, off + 6);
    var numberCentralDirectoryRecordsOnThisDisk :- ReadU16(b, off + 8);
    var numberCentralDirectoryRecords :- ReadU16(b, off + 10);
    var centralDirectorySize :- ReadU32(b, off + 12);
    var centralDirectoryOffset :- ReadU32(b, off + 16);
    var commentLength :- ReadU16(b, off + 20);
    var comment :- ReadBytes(b, off + 22, commentLength);
    Ok(DirectoryEnd(signature, numberOfDisks, centralDirectoryStartDisk,
                    numberCentralDirectoryRecordsOnThisDisk, numberCentralDirectoryRecords,
                    centralDirectorySize, centralDirectoryOffset, commentLength, comment))
  }

  /** Reading field by field and reading in closed form agree on every buffer. */
  lemma DirectoryEndStepwiseAgrees(b: seq<byte>, off: nat)
    ensures DirectoryEndStepwise(b, off) == ParseDirectoryEnd(b, off)
  {
  }

  /** `findEndOfCentralDirectory`: scan backwards, parse the record found, and
      fail fatally when the scan finds nothing. */
  function FindEndOfCentralDirectory(b: seq<byte>): (r: Result<DirectoryEnd>)
    ensures r == Err(EndOfCentralDirectoryNotFound) <==>
              forall j :: 0 <= j && j + RecordSize <= |b| ==> !SignatureAt(b, j)
    ensures r.Ok? ==> r.value.signature == SignatureBytes
    ensures r.Ok? ==> Locate(b).Some? && ParseDirectoryEnd(b, Locate(b).value) == r
    ensures Locate(b).Some? ==> r == ParseDirectoryEnd(b, Locate(b).value)
    ensures r.Err? && r.error != EndOfCentralDirectoryNotFound ==> r.error == RangeError
  {
    match Locate(b)
    case None => Err(EndOfCentralDirectoryNotFound)
    case Some(i) => ParseDirectoryEnd(b, i)
  }

  /** A record whose stated comment length agrees with its comment. */
  predicate WellFormed(d: DirectoryEnd) {
    |d.signature| == 4 && d.commentLength == |d.comment|
  }

  /** The bytes of a record, the inverse of `ParseDirectoryEnd`. */
  function EncodeDirectoryEnd(d: DirectoryEnd): (r: seq<byte>)
    ensures WellFormed(d) ==> |r| == RecordSize + d.commentLength
  {
    d.signature + LeU16(d.numberOfDisks) + LeU16(d.centralDirectoryStartDisk)
    + LeU16(d.numberCentralDirectoryRecordsOnThisDisk) + LeU16(d.numberCentralDirectoryRecords)
    + LeU32(d.centralDirectorySize) + LeU32(d.centralDirectoryOffset)
    + LeU16(d.commentLength) + d.comment
  }

  /** The converse round trip: a record that parses encodes back to exactly
      the bytes it was read from, so no byte of it is lost or invented. */
  lemma DirectoryEndReencodes(b: seq<byte>, off: nat)
    requires ParseDirectoryEnd(b, off).Ok?
    ensures WellFormed(ParseDirectoryEnd(b, off).value)
    ensures var d := ParseDirectoryEnd(b, off).value;
            b[off..off + RecordSize + d.commentLength] == EncodeDirectoryEnd(d)
  {
    var d := ParseDirectoryEnd(b, off).value;
    EmbedsSlice(b, off, off + 4);
    var e1 := d.signature;
    EmbedsU16(b, off + 4);
    EmbedsJoin(b, off, e1, LeU16(d.numberOfDisks));
    var e2 := e1 + LeU16(d.numberOfDisks);
    EmbedsU16(b, off + 6);
    EmbedsJoin(b, off, e2, LeU16(d.centralDirectoryStartDisk));
    var e3 := e2 + LeU16(d.centralDirectoryStartDisk);
    EmbedsU16(b, off + 8);
    EmbedsJoin(b, off, e3, LeU16(d.numberCentralDirectoryRecordsOnThisDisk));
    var e4 := e3 + LeU16(d.numberCentralDirectoryRecordsOnThisDisk);
    EmbedsU16(b, off + 10);
    EmbedsJoin(b, off, e4, LeU16(d.numberCentralDirectoryRecords));
    var e5 := e4 + LeU16(d.numberCentralDirectoryRecords);
    EmbedsU32(b, off + 12);
    EmbedsJoin(b, off, e5, LeU32(d.centralDirectorySize));
    var e6 := e5 + LeU32(d.centralDirectorySize);
    EmbedsU32(b, off + 16);
    EmbedsJoin(b, off, e6, LeU32(d.centralDirectoryOffset));
    var e7 := e6 + LeU32(d.centralDirectoryOffset);
    EmbedsU16(b, off + 20);
    EmbedsJoin(b, off, e7, LeU16(d.commentLength));
    var e8 := e7 + LeU16(d.commentLength);
    EmbedsSlice(b, off + 22, off + 22 + d.commentLength);
    EmbedsJoin(b, off, e8, d.comment);
    var e9 := e8 + d.comment;
    EmbeddedIsSlice(b, off, e9);
  }

  /** Parsing an encoded record, wherever it sits in a buffer, gives it back. */
  lemma DirectoryEndRoundTrip(p: seq<byte>, d: DirectoryEnd, s: seq<byte>)
    requires WellFormed(d)
    ensures ParseDirectoryEnd(p + EncodeDirectoryEnd(d) + s, |p|) == Ok(d)
  {
    var b := p + EncodeDirectoryEnd(d) + s;
    var off := |p|;
    EmbedsMiddle(p, EncodeDirectoryEnd(d), s);
    // the record's prefixes, one field longer each time
    var e1 := d.signature;
    var e2 := e1 + LeU16(d.numberOfDisks);
    var e3 := e2 + LeU16(d.centralDirectoryStartDisk);
    var e4 := e3 + LeU16(d.numberCentralDirectoryRecordsOnThisDisk);
    var e5 := e4 + LeU16(d.numberCentralDirectoryRecords);
    var e6 := e5 + LeU32(d.centralDirectorySize);
    var e7 := e6 + LeU32(d.centralDirectoryOffset);
    var e8 := e7 + LeU16(d.commentLength);
    EmbedsSplit(b, off, e8, d.comment);
    EmbedsSplit(b, off, e7, LeU16(d.commentLength));
    EmbedsSplit(b, off, e6, LeU32(d.centralDirectoryOffset));
    EmbedsSplit(b, off, e5, LeU32(d.centralDirectorySize));
    EmbedsSplit(b, off, e4, LeU16(d.numberCentralDirectoryRecords));
    EmbedsSplit(b, off, e3, LeU16(d.numberCentralDirectoryRecordsOnThisDisk));
    EmbedsSplit(b, off, e2, LeU16(d.centralDirectoryStartDisk));
    EmbedsSplit(b, off, e1, LeU16(d.numberOfDisks));
    ReadBytesEmbedded(b, off, d.signature);
    ReadU16Embedded(b, off + 4, d.numberOfDisks);
    ReadU16Embedded(b, off + 6, d.centralDirectoryStartDisk);
    ReadU16Embedded(b, off + 8, d.numberCentralDirectoryRecordsOnThisDisk);
    ReadU16Embedded(b, off + 10, d.numberCentralDirectoryRecords);
    ReadU32Embedded(b, off + 12, d.centralDirectorySize);
    ReadU32Embedded(b, off + 16, d.centralDirectoryOffset);
    ReadU16Embedded(b, off + 20, d.commentLength);
    ReadBytesEmbedded(b, off + 22, d.comment);
  }

  /** A record placed at the very end of a buffer, with no other signature
      inside its own bytes within reach of the scan, is the one the reader finds. */
  lemma FindLaidOutEnd(q: seq<byte>, d: DirectoryEnd)
    requires WellFormed(d) && d.signature == SignatureBytes
    requires forall j :: 0 < j <= d.commentLength ==> !SignatureAt(EncodeDirectoryEnd(d), j)
    ensures FindEndOfCentralDirectory(q + EncodeDirectoryEnd(d)) == Ok(d)
  {
    var ed := EncodeDirectoryEnd(d);
    var b := q + ed;
    var start := |q|;
    assert b == q + ed + [];
    DirectoryEndRoundTrip(q, d, []);
    assert b[start..start + 4] == d.signature;
    assert SignatureAt(b, start);
    forall j | start < j && j + RecordSize <= |b|
      ensures !SignatureAt(b, j)
    {
      assert !SignatureAt(ed, j - start);
    }
    LocateFindsLast(b, start);
  }
}

=== FILE: extraction.dfy ===
/** `CentralFileHeader.extract`: locate an entry's payload through its local
    header and decode it by compression method. Raw-DEFLATE decoding is a
    foreign codec, so it is a parameter: `inflate(data)` is `None` when the
    codec rejects `data`. */
module Extraction {
  import opened Results
  import opened BinaryView
  import opened CentralDirectory
  import opened LocalHeader

  const Stored: u16 := 0
  const Deflated: u16 := 8

  /** The bytes handed to the decoder: the local header at the entry's
      `localFileHeaderOffset` gives where they start, the central header's
      `compressedSize` how many there are, and the buffer's end may cut them short. */
  function RawPayload(b: seq<byte>, h: CentralFileHeader): (r: Result<seq<byte>>)
    ensures r.Ok? <==> ParseLocalFileHeader(b, h.localFileHeaderOffset).Ok?
    ensures r.Err? ==> r.error == RangeError
    ensures r.Ok? ==>
              var start := ParseLocalFileHeader(b, h.localFileHeaderOffset).value.startsAt;
              && (start < |b| ==> r.value == b[start..Min(start + h.compressedSize, |b|)])
              && (|b| <= start ==> r.value == [])
  {
    var local :- ParseLocalFileHeader(b, h.localFileHeaderOffset);
    Ok(Slice(b, local.startsAt, local.startsAt + h.compressedSize))
  }

  /** Method 0 returns the payload unchanged, method 8 returns what the decoder
      makes of it, and every other method is rejected. */
  function Extract(b: seq<byte>, h: CentralFileHeader, inflate: seq<byte> -> Option<seq<byte>>): (r: Result<seq<byte>>)
    ensures RawPayload(b, h).Err? ==> r == Err(RawPayload(b, h).error)
    ensures RawPayload(b, h).Ok? && h.compressionMethod == Stored ==> r == RawPayload(b, h)
    ensures RawPayload(b, h).Ok? && h.compressionMethod == Deflated ==>
              (inflate(RawPayload(b, h).value).Some? ==> r == Ok(inflate(RawPayload(b, h).value).value))
              && (inflate(RawPayload(b, h).value).None? ==> r == Err(InflateFailed))
    ensures RawPayload(b, h).Ok? && h.compressionMethod != Stored && h.compressionMethod != Deflated ==>
              r == Err(UnsupportedCompressionMethod(h.compressionMethod))
    ensures r.Ok? ==> h.compressionMethod == Stored || h.compressionMethod == Deflated
  {
    var payload :- RawPayload(b, h);
    if h.compressionMethod == Stored then
      Ok(payload)
    else if h.compressionMethod == Deflated then
      match inflate(payload)
      case Some(data) => Ok(data)
      case None => Err(InflateFailed)
    else
      Err(UnsupportedCompressionMethod(h.compressionMethod))
  }

  /** Only method 8 consults the decoder: for every other method the outcome
      is the same whatever the decoder would do. */
  lemma ExtractIgnoresDecoder(b: seq<byte>, h: CentralFileHeader,
                              inflate: seq<byte> -> Option<seq<byte>>, other: seq<byte> -> Option<seq<byte>>)
    requires h.compressionMethod != Deflated
    ensures Extract(b, h, inflate) == Extract(b, h, other)
  {
  }

  /** The slice length comes from the central header: rewriting the local
      header's own compressed-size field does not change what is extracted. */
  lemma ExtractUsesCentralSize(b: seq<byte>, b2: seq<byte>, h: CentralFileHeader,
                               inflate: seq<byte> -> Option<seq<byte>>)
    requires AgreeOutside(b, b2, h.localFileHeaderOffset + 18, h.localFileHeaderOffset + 22)
    ensures Extract(b, h, inflate) == Extract(b2, h, inflate)
  {
    RawPayloadUsesCentralSize(b, b2, h);
  }

  lemma RawPayloadUsesCentralSize(b: seq<byte>, b2: seq<byte>, h: CentralFileHeader)
    requires AgreeOutside(b, b2, h.localFileHeaderOffset + 18, h.localFileHeaderOffset + 22)
    ensures RawPayload(b, h) == RawPayload(b2, h)
  {
    var off := h.localFileHeaderOffset;
    SizeRewrite(b, b2, off);
    if ParseLocalFileHeader(b, off).Ok? {
      var start := ParseLocalFileHeader(b, off).value.startsAt;
      SliceAgrees(b, b2, start, start + h.compressedSize);
    }
  }

  /** An entry laid out as the reader expects it (local header, extra field,
      the 16 bytes skipped when bit 3 is set, then the payload) extracts to
      its payload: unchanged when stored, through the decoder when deflated. */
  lemma ExtractLaidOutEntry(p: seq<byte>, l: LocalFileHeader, extra: seq<byte>, gap: seq<byte>,
                            payload: seq<byte>, s: seq<byte>, h: CentralFileHeader,
                            inflate: seq<byte> -> Option<seq<byte>>)
    requires LocalHeader.WellFormedAt(l, |p|) && |extra| == l.extraLength
    requires |gap| == if HasDataDescriptor(l.generalPurposeFlags) then DataDescriptorSize else 0
    requires h.localFileHeaderOffset == |p| && h.compressedSize == |payload|
    ensures var b := p + EncodeLocalFileHeader(l, extra) + gap + payload + s;
            && RawPayload(b, h) == Ok(payload)
            && (h.compressionMethod == Stored ==> Extract(b, h, inflate) == Ok(payload))
            && (h.compressionMethod == Deflated && inflate(payload).Some? ==>
                  Extract(b, h, inflate) == Ok(inflate(payload).value))
  {
    var el := EncodeLocalFileHeader(l, extra);
    var b := p + el + gap + payload + s;
    assert b == p + el + (gap + payload + s);
    LocalFileHeaderRoundTrip(p, l, extra, gap + payload + s);
    assert l.startsAt == |p + el + gap|;
    assert b == (p + el + gap) + payload + s;
    assert b[l.startsAt..l.startsAt + |payload|] == payload;
  }
}

=== FILE: local_header.dfy ===
/** Local file headers (section 4.3.7 of the PKWARE .ZIP File Format
    Specification) and where an entry's payload starts after one. */
module LocalHeader {
  import opened Results
  import opened BinaryView

  /** Size of a header before its file name and extra field. */
  const HeaderSize: nat := 30

  /** Bytes skipped before the payload when general-purpose bit 3 is set. */
  const DataDescriptorSize: nat := 16

  datatype LocalFileHeader = LocalFileHeader(
    signature: u32,
    version: u16,
    generalPurposeFlags: u16,
    compressionMethod: u16,
    lastModifiedTime: u16,
    lastModifiedDate: u16,
    crc: u32,
    compressedSize: u32,
    uncompressedSize: u32,
    fileNameLength: u16,
    fileName: seq<byte>,
    extraLength: u16,
    /** Offset of the first payload byte. */
    startsAt: nat,
    /** Offset just past the payload, by this header's own compressed size. */
    nextEntryByteOffset: nat)

  /** General-purpose bit 3: the sizes and CRC follow in a data descriptor. */
  predicate HasDataDescriptor(flags: u16) {
    (flags as bv16) & 0x08 != 0
  }

  /** The `LocalFileHeader` constructor at `off`, in closed form. Its eleven
      fixed-field reads throw exactly when the 30 fixed bytes do not fit; of
      the variable part only the file name is viewed (and bounds-checked), the
      extra field is merely skipped by its length, so `startsAt` may lie beyond
      the buffer. `LocalFileHeaderStepwise` follows the constructor read by
      read, and `LocalFileHeaderStepwiseAgrees` shows the two are the same. */
  function ParseLocalFileHeader(b: seq<byte>, off: nat): (r: Result<LocalFileHeader>)
    ensures r.Ok? <==> off + HeaderSize <= |b| && off + HeaderSize + U16At(b, off + 26) <= |b|
    ensures r.Err? ==> r.error == RangeError
    ensures r.Ok? ==> WellFormedAt(r.value, off)
  {
    if off + HeaderSize > |b| then
      Err(RangeError)
    else
      var flags := U16At(b, off + 6);
      var nameAt := off + HeaderSize;
      var extraAt := nameAt + U16At(b, off + 26);
      if extraAt > |b| then
        Err(RangeError)
      else
        var headerEnd := extraAt + U16At(b, off + 28);
        var startsAt := if HasDataDescriptor(flags) then headerEnd + DataDescriptorSize else headerEnd;
        Ok(LocalFileHeader(
          U32At(b, off), U16At(b, off + 4), flags, U16At(b, off + 8), U16At(b, off + 10),
          U16At(b, off + 12), U32At(b, off + 14), U32At(b, off + 18), U32At(b, off + 22),
          U16At(b, off + 26), b[nameAt..extraAt], U16At(b, off + 28),
          startsAt, startsAt + U32At(b, off + 18)))
  }

  /** The `LocalFileHeader` constructor read by read, in the order it makes them. */
  function LocalFileHeaderStepwise(b: seq<byte>, off: nat): Result<LocalFileHeader>
  {
    var signature :- ReadU32(b, off);
    var version :- ReadU16(b, off + 4);
    var generalPurposeFlags :- ReadU16(b, off + 6);
    var compressionMethod :- ReadU16(b, off + 8);
    var lastModifiedTime :- ReadU16(b, off + 10);
    var lastModifiedDate :- ReadU16(b, off + 12);
    var crc :- ReadU32(b, off + 14);
    var compressedSize :- ReadU32(b, off + 18);
    var uncompressedSize :- ReadU32(b, off + 22);
    var fileNameLength :- ReadU16(b, off + 26);
    var extraLength :- ReadU16(b, off + 28);
    var fileName :- ReadBytes(b, off + 30, fileNameLength);
    var headerEnd := off + 30 + fileNameLength + extraLength;
    var startsAt := if HasDataDescriptor(generalPurposeFlags) then headerEnd + 16 else headerEnd;
    Ok(LocalFileHeader(
      signature, version, generalPurposeFlags, compressionMethod, lastModifiedTime,
      lastModifiedDate, crc, compressedSize, uncompressedSize, fileNameLength, fileName,
      extraLength, startsAt, startsAt + compressedSize))
  }

  /** Reading field by field and reading in closed form agree on every buffer. */
  lemma LocalFileHeaderStepwiseAgrees(b: seq<byte>, off: nat)
    ensures LocalFileHeaderStepwise(b, off) == ParseLocalFileHeader(b, off)
  {
  }

  /** The field layout of a local header, and where its payload starts and ends.
      This only unfolds the parser, as a proof step; the specification is
      `LocalFileHeaderReencodes`. */
  lemma LocalFileHeaderFields(b: seq<byte>, off: nat)
    requires ParseLocalFileHeader(b, off).Ok?
    ensures var l := ParseLocalFileHeader(b, off).value;
            && l.signature == U32At(b, off)
            && l.version == U16At(b, off + 4)
            && l.generalPurposeFlags == U16At(b, off + 6)
            && l.compressionMethod == U16At(b, off + 8)
            && l.lastModifiedTime == U16At(b, off + 10)
            && l.lastModifiedDate == U16At(b, off + 12)
            && l.crc == U32At(b, off + 14)
            && l.compressedSize == U32At(b, off + 18)
            && l.uncompressedSize == U32At(b, off + 22)
            && l.fileNameLength == U16At(b, off + 26)
            && l.extraLength == U16At(b, off + 28)
            && l.fileName == b[off + HeaderSize..off + HeaderSize + l.fileNameLength]
            && l.startsAt == off + HeaderSize + l.fileNameLength + l.extraLength
                             + (if HasDataDescriptor(l.generalPurposeFlags) then DataDescriptorSize else 0)
            && l.nextEntryByteOffset == l.startsAt + l.compressedSize
  {
  }

  /** Rewriting the flags of a local header changes nothing but the flags and,
      through bit 3 alone, the payload position. */
  lemma FlagsRewrite(b: seq<byte>, b2: seq<byte>, off: nat)
    requires AgreeOutside(b, b2, off + 6, off + 8)
    ensures ParseLocalFileHeader(b, off).Ok? <==> ParseLocalFileHeader(b2, off).Ok?
    ensures ParseLocalFileHeader(b, off).Ok? ==>
              var l := ParseLocalFileHeader(b, off).value;
              var l2 := ParseLocalFileHeader(b2, off).value;
              && l2 == l.(generalPurposeFlags := l2.generalPurposeFlags,
                          startsAt := l2.startsAt, nextEntryByteOffset := l2.nextEntryByteOffset)
              && l2.generalPurposeFlags == U16At(b2, off + 6)
              && l2.startsAt - l.startsAt
                 == (if HasDataDescriptor(l2.generalPurposeFlags) then 16 else 0)
                    - (if HasDataDescriptor(l.generalPurposeFlags) then 16 else 0)
              && l2.nextEntryByteOffset - l2.startsAt == l.nextEntryByteOffset - l.startsAt
  {
    if off + HeaderSize <= |b| {
      assert U16At(b, off + 26) == U16At(b2, off + 26);
      if off + HeaderSize + U16At(b, off + 26) <= |b| {
        LocalFileHeaderFields(b, off);
        LocalFileHeaderFields(b2, off);
        assert b[off + HeaderSize..off + HeaderSize + U16At(b, off + 26)]
            == b2[off + HeaderSize..off + HeaderSize + U16At(b, off + 26)];
      }
    }
  }

  /** Rewriting the compressed-size field of a local header changes neither
      whether it parses nor where its payload starts. */
  lemma SizeRewrite(b: seq<byte>, b2: seq<byte>, off: nat)
    requires AgreeOutside(b, b2, off + 18, off + 22)
    ensures ParseLocalFileHeader(b, off).Ok? <==> ParseLocalFileHeader(b2, off).Ok?
    ensures ParseLocalFileHeader(b, off).Ok? ==>
              ParseLocalFileHeader(b2, off).value.startsAt == ParseLocalFileHeader(b, off).value.startsAt
  {
    if off + HeaderSize <= |b| {
      assert U16At(b, off + 6) == U16At(b2, off + 6);
      assert U16At(b, off + 26) == U16At(b2, off + 26);
      assert U16At(b, off + 28) == U16At(b2, off + 28);
    }
  }

  /** Setting bit 3 moves the payload exactly 16 bytes further, holding every
      other byte of the header fixed. */
  lemma DataDescriptorAddsSixteen(b: seq<byte>, b2: seq<byte>, off: nat)
    requires AgreeOutside(b, b2, off + 6, off + 8)
    requires ParseLocalFileHeader(b, off).Ok?
    requires !HasDataDescriptor(ParseLocalFileHeader(b, off).value.generalPurposeFlags)
    requires off + 8 <= |b2| && HasDataDescriptor(U16At(b2, off + 6))
    ensures ParseLocalFileHeader(b2, off).Ok?
    ensures ParseLocalFileHeader(b2, off).value.startsAt == ParseLocalFileHeader(b, off).value.startsAt + DataDescriptorSize
  {
    FlagsRewrite(b, b2, off);
  }

  /** No flag bit other than bit 3 affects where the payload starts. */
  lemma OtherFlagBitsIgnored(b: seq<byte>, b2: seq<byte>, off: nat)
    requires AgreeOutside(b, b2, off + 6, off + 8)
    requires ParseLocalFileHeader(b, off).Ok?
    requires off + 8 <= |b2|
    requires HasDataDescriptor(U16At(b2, off + 6)) == HasDataDescriptor(ParseLocalFileHeader(b, off).value.generalPurposeFlags)
    ensures ParseLocalFileHeader(b2, off).Ok?
    ensures ParseLocalFileHeader(b2, off).value.startsAt == ParseLocalFileHeader(b, off).value.startsAt
  {
    FlagsRewrite(b, b2, off);
  }

  /** A header that could have been read at `off`, followed by `extraLength`
      bytes of extra field. */
  predicate WellFormedAt(l: LocalFileHeader, off: nat) {
    && |l.fileName| == l.fileNameLength
    && l.startsAt == off + HeaderSize + l.fileNameLength + l.extraLength
                     + (if HasDataDescriptor(l.generalPurposeFlags) then DataDescriptorSize else 0)
    && l.nextEntryByteOffset == l.startsAt + l.compressedSize
  }

  /** The converse round trip: a header that parses is well formed, and its
      fixed part and file name encode back to exactly the bytes read. The
      extra field is skipped rather than read, so it is left out here. */
  lemma LocalFileHeaderReencodes(b: seq<byte>, off: nat)
    requires ParseLocalFileHeader(b, off).Ok?
    ensures WellFormedAt(ParseLocalFileHeader(b, off).value, off)
    ensures var l := ParseLocalFileHeader(b, off).value;
            b[off..off + HeaderSize + l.fileNameLength] == EncodeLocalFileHeader(l, [])
  {
    var l := ParseLocalFileHeader(b, off).value;
    LocalFileHeaderFields(b, off);
    EmbedsU32(b, off);
    var e1 := LeU32(l.signature);
    EmbedsU16(b, off + 4);
    EmbedsJoin(b, off, e1, LeU16(l.version));
    var e2 := e1 + LeU16(l.version);
    EmbedsU16(b, off + 6);
    EmbedsJoin(b, off, e2, LeU16(l.generalPurposeFlags));
    var e3 := e2 + LeU16(l.generalPurposeFlags);
    EmbedsU16(b, off + 8);
    EmbedsJoin(b, off, e3, LeU16(l.compressionMethod));
    var e4 := e3 + LeU16(l.compressionMethod);
    EmbedsU16(b, off + 10);
    EmbedsJoin(b, off, e4, LeU16(l.lastModifiedTime));
    var e5 := e4 + LeU16(l.lastModifiedTime);
    EmbedsU16(b, off + 12);
    EmbedsJoin(b, off, e5, LeU16(l.lastModifiedDate));
    var e6 := e5 + LeU16(l.lastModifiedDate);
    EmbedsU32(b, off + 14);
    EmbedsJoin(b, off, e6, LeU32(l.crc));
    var e7 := e6 + LeU32(l.crc);
    EmbedsU32(b, off + 18);
    EmbedsJoin(b, off, e7, LeU32(l.compressedSize));
    var e8 := e7 + LeU32(l.compressedSize);
    EmbedsU32(b, off + 22);
    EmbedsJoin(b, off, e8, LeU32(l.uncompressedSize));
    var e9 := e8 + LeU32(l.uncompressedSize);
    EmbedsU16(b, off + 26);
    EmbedsJoin(b, off, e9, LeU16(l.fileNameLength));
    var e10 := e9 + LeU16(l.fileNameLength);
    EmbedsU16(b, off + 28);
    EmbedsJoin(b, off, e10, LeU16(l.extraLength));
    var e11 := e10 + LeU16(l.extraLength);
    EmbedsSlice(b, off + HeaderSize, off + HeaderSize + l.fileNameLength);
    EmbedsJoin(b, off, e11, l.fileName);
    var e12 := e11 + l.fileName;
    EmbeddedIsSlice(b, off, e12);
  }

  /** The bytes of a header and its extra field, the inverse of `ParseLocalFileHeader`. */
  function EncodeLocalFileHeader(l: LocalFileHeader, extra: seq<byte>): (r: seq<byte>)
    ensures |r| == HeaderSize + |l.fileName| + |extra|
  {
    LeU32(l.signature) + LeU16(l.version) + LeU16(l.generalPurposeFlags)
    + LeU16(l.compressionMethod) + LeU16(l.lastModifiedTime) + LeU16(l.lastModifiedDate)
    + LeU32(l.crc) + LeU32(l.compressedSize) + LeU32(l.uncompressedSize)
    + LeU16(l.fileNameLength) + LeU16(l.extraLength)
    + l.fileName + extra
  }

  /** Every read the parser makes of an embedded header returns the encoded field. */
  lemma LocalFileHeaderReadsBack(b: seq<byte>, off: nat, l: LocalFileHeader, extra: seq<byte>)
    requires Embeds(b, off, EncodeLocalFileHeader(l, extra))
    ensures ReadU32(b, off) == Ok(l.signature)
    ensures ReadU16(b, off + 4) == Ok(l.version)
    ensures ReadU16(b, off + 6) == Ok(l.generalPurposeFlags)
    ensures ReadU16(b, off + 8) == Ok(l.compressionMethod)
    ensures ReadU16(b, off + 10) == Ok(l.lastModifiedTime)
    ensures ReadU16(b, off + 12) == Ok(l.lastModifiedDate)
    ensures ReadU32(b, off + 14) == Ok(l.crc)
    ensures ReadU32(b, off + 18) == Ok(l.compressedSize)
    ensures ReadU32(b, off + 22) == Ok(l.uncompressedSize)
    ensures ReadU16(b, off + 26) == Ok(l.fileNameLength)
    ensures ReadU16(b, off + 28) == Ok(l.extraLength)
    ensures ReadBytes(b, off + 30, |l.fileName|) == Ok(l.fileName)
  {
    // the header's prefixes, one field longer each time
    var e1 := LeU32(l.signature);
    var e2 := e1 + LeU16(l.version);
    var e3 := e2 + LeU16(l.generalPurposeFlags);
    var e4 := e3 + LeU16(l.compressionMethod);
    var e5 := e4 + LeU16(l.lastModifiedTime);
    var e6 := e5 + LeU16(l.lastModifiedDate);
    var e7 := e6 + LeU32(l.crc);
    var e8 := e7 + LeU32(l.compressedSize);
    var e9 := e8 + LeU32(l.uncompressedSize);
    var e10 := e9 + LeU16(l.fileNameLength);
    var e11 := e10 + LeU16(l.extraLength);
    var e12 := e11 + l.fileName;
    EmbedsSplit(b, off, e12, extra);
    EmbedsSplit(b, off, e11, l.fileName);
    EmbedsSplit(b, off, e10, LeU16(l.extraLength));
    EmbedsSplit(b, off, e9, LeU16(l.fileNameLength));
    EmbedsSplit(b, off, e8, LeU32(l.uncompressedSize));
    EmbedsSplit(b, off, e7, LeU32(l.compressedSize));
    EmbedsSplit(b, off, e6, LeU32(l.crc));
    EmbedsSplit(b, off, e5, LeU16(l.lastModifiedDate));
    EmbedsSplit(b, off, e4, LeU16(l.lastModifiedTime));
    EmbedsSplit(b, off, e3, LeU16(l.compressionMethod));
    EmbedsSplit(b, off, e2, LeU16(l.generalPurposeFlags));
    EmbedsSplit(b, off, e1, LeU16(l.version));
    ReadU32Embedded(b, off, l.signature);
    ReadU16Embedded(b, off + 4, l.version);
    ReadU16Embedded(b, off + 6, l.generalPurposeFlags);
    ReadU16Embedded(b, off + 8, l.compressionMethod);
    ReadU16Embedded(b, off + 10, l.lastModifiedTime);
    ReadU16Embedded(b, off + 12, l.lastModifiedDate);
    ReadU32Embedded(b, off + 14, l.crc);
    ReadU32Embedded(b, off + 18, l.compressedSize);
    ReadU32Embedded(b, off + 22, l.uncompressedSize);
    ReadU16Embedded(b, off + 26, l.fileNameLength);
    ReadU16Embedded(b, off + 28, l.extraLength);
    ReadBytesEmbedded(b, off + 30, l.fileName);
  }


  /** Parsing an encoded header, wherever it sits in a buffer, gives it back. */
  lemma LocalFileHeaderRoundTrip(p: seq<byte>, l: LocalFileHeader, extra: seq<byte>, s: seq<byte>)
    requires WellFormedAt(l, |p|) && |extra| == l.extraLength
    ensures ParseLocalFileHeader(p + EncodeLocalFileHeader(l, extra) + s, |p|) == Ok(l)
  {
    var b := p + EncodeLocalFileHeader(l, extra) + s;
    EmbedsMiddle(p, EncodeLocalFileHeader(l, extra), s);
    LocalFileHeaderReadsBack(b, |p|, l, extra);
  }
}

=== FILE: results.dfy ===
/** Failure-compatible result types shared by every part of the ZIP reader.
    Every exception the reader can raise becomes an `Err` value. */
module Results {

  /** The ways opening an archive or extracting an entry can fail. */
  datatype ZipError =
    /** A DataView read or a typed-array view that would reach past the
        buffer (a JavaScript RangeError). */
    | RangeError
    /** The backward scan found no end-of-central-directory signature. */
    | EndOfCentralDirectoryNotFound
    /** Extraction was asked for a compression method other than 0 or 8. */
    | UnsupportedCompressionMethod(compressionMethod: int)
    /** The raw-DEFLATE decoder rejected the payload. */
    | InflateFailed

  datatype Option<+T> = None | Some(value: T)

  /** Either a value or the error that aborted the computation; usable with `:-`. */
  datatype Result<+T> = Ok(value: T) | Err(error: ZipError) {

    predicate IsFailure() {
      Err?
    }

    function PropagateFailure<U>(): Result<U>
      requires Err?
    {
      Err(error)
    }

    function Extract(): T
      requires Ok?
    {
      value
    }
  }
}
